=== FILE: README.md ===
# ArcadeGameScene rules, modelled in Dafny

This project models the game rules of `ArcadeGameScene`, the SpriteKit scene
of an arcade game template. A player disc is pushed up or down by touches on
the two halves of the screen. Asteroids spawn at the left or right edge and
slide across. An asteroid is removed when it leaves the frame or touches the
player. A session clock counts the time played.

The scene is an immutable record (`SceneGraph.Scene`). It holds the frame,
the child nodes, the two input flags `isMovingToTheRight` and
`isMovingToTheLeft`, `lastUpdate`, and the game logic. The game logic is the
session duration plus the game-over flag. Each callback of the scene is a
pure transition on that record:

- `GameLoop.Update` is `update(_:)`. It runs the off-screen sweep, picks the
  forces to request on the player from the flags, runs the game-over step,
  and accounts the elapsed time.
- `Input.TouchesBegan` and `Input.TouchesEnded` are the touch callbacks.
- `Contact.DidBegin` is the contact delegate.
- `Spawning.CreateAsteroid` is one firing of the spawn cycle.
- `Events.Step` and `Events.Run` apply any sequence of these callbacks.

Coordinates and times are mathematical reals. Category masks are `bv32`,
matching Swift's `UInt32`. Node identity, which Swift gets from object
references, is an `id` field. The scene hands out ids from a `nextId`
counter.

Modules: `Wrappers` (Option), `Geometry`, `PhysicsCategory`, `GameSession`,
`SceneGraph`, `Culling`, `Movement`, `GameLoop`, `Input`, `Contact`,
`Spawning`, `Events`.

Facts about the code that shape the model:

- The time delta is `currentTime - lastUpdate`, passed on unclamped (lines
  77-79). `GameLoop.TimeElapsed` does not clamp it either, so time going
  backwards shrinks the session duration.
- The right flag calls `moveDown`, which applies (0, -5) (lines 61-63 and
  341-346). The left flag calls `moveUp`, which applies (0, +5) (lines 65-67
  and 333-339). `Movement.RequestedForces` uses that mapping.
- The first frame is detected by `lastUpdate == 0` (line 74). So a frame
  stamped exactly 0 re-arms that sentinel
  (`GameLoop.ZeroTimestampRestartsClock`). The telescoping property therefore
  needs every timestamp except the last to be non-zero.
- The lifetime timer that is commented out at lines 290-293 is not modelled.
  Asteroids leave the scene only through the sweep or a contact.

## Model

| member | source | states |
|---|---|---|
| PhysicsCategory.CategoriesAreDisjointBits | ArcadeGameTemplate/Game/ArcadeGameScene.swift:349-355 | player, asteroid and floor are distinct single bits (1, 2, 4), pairwise disjoint and inside `all` |
| PhysicsCategory.ConfiguredPairs | ArcadeGameTemplate/Game/ArcadeGameScene.swift:275-277 | with the asteroid's masks (and the player's at lines 121-124 and the floor's at 310-312), only player/asteroid and asteroid/floor pairs report contacts and collide; player/floor and asteroid/asteroid never do |
| GameSession.IncreaseSessionTime | ArcadeGameTemplate/Game/ArcadeGameScene.swift:79 | the session duration grows by exactly the given amount, whatever its sign, and the game-over flag is untouched |
| GameSession.FinishGame | ArcadeGameTemplate/Game/ArcadeGameScene.swift:212-217 | afterwards the game is over, the duration is kept, and finishing a finished game changes nothing |
| GameSession.CheckGameOver | ArcadeGameTemplate/Game/ArcadeGameScene.swift:70 | the per-frame game-over step leaves the game logic exactly as it was: it finishes only a game that is already over |
| GameSession.GameOverLatch | ArcadeGameTemplate/Game/ArcadeGameScene.swift:202-217 | finishing is idempotent; the game-over step neither clears nor raises the flag and is idempotent |
| SceneGraph.RemoveFromParent | ArcadeGameTemplate/Game/ArcadeGameScene.swift:369 | the node with that identity leaves the scene, every other child stays, no child is added, the rest of the scene is unchanged, and removing an absent node is a no-op |
| SceneGraph.RemoveFromParentSplice | ArcadeGameTemplate/Game/ArcadeGameScene.swift:369 | in a well-formed scene, removing the child at index k leaves exactly the children before and after it, in their order |
| Culling.Cull | ArcadeGameTemplate/Game/ArcadeGameScene.swift:40-56 | a child survives iff it is not an asteroid sprite whose box (position ∓ size/2) lies wholly outside [0, width] × [0, height]; non-asteroid nodes always survive unchanged; a single child is kept exactly when that test fails |
| Culling.OffScreenIffDisjoint | ArcadeGameTemplate/Game/ArcadeGameScene.swift:44-51 | for non-negative sizes, the off-screen test holds iff the closed box shares no point with the closed frame, so boxes touching an edge survive |
| Culling.CullAppend | ArcadeGameTemplate/Game/ArcadeGameScene.swift:40-56 | the sweep keeps the children's order: sweeping a + b is sweeping a then b, which with the single-child rule fixes the result |
| Culling.CullIdempotent | ArcadeGameTemplate/Game/ArcadeGameScene.swift:40-56 | a second sweep over the survivors removes nothing |
| Culling.CullPreservesWellFormed | ArcadeGameTemplate/Game/ArcadeGameScene.swift:53 | removing off-screen asteroids keeps child identities distinct and below `nextId` |
| Movement.RequestedForces | ArcadeGameTemplate/Game/ArcadeGameScene.swift:61-67 | (0, -5) is requested iff the right flag is set and (0, +5) iff the left flag is set; both may fire in one frame, right first, none without flags, every force is vertical |
| Movement.NetForce | ArcadeGameTemplate/Game/ArcadeGameScene.swift:333-346 | the resultant force has dx = 0 and dy = 5·left − 5·right, so both flags cancel |
| GameLoop.TimeElapsed | ArcadeGameTemplate/Game/ArcadeGameScene.swift:74-77 | with the 0 sentinel the reported delta is 0; otherwise last update plus delta is the current time (negative deltas pass through) |
| GameLoop.Update | ArcadeGameTemplate/Game/ArcadeGameScene.swift:35-82 | one frame: children become the sweep's survivors, the forces are those the flags select, the game-over flag is unchanged, the duration grows by 0 on the first frame and by currentTime − lastUpdate afterwards, lastUpdate becomes currentTime, flags and frame stay |
| GameLoop.UpdatePreservesWellFormed | ArcadeGameTemplate/Game/ArcadeGameScene.swift:35-82 | a frame keeps node identities distinct and below `nextId` |
| GameLoop.SessionTimeTelescopes | ArcadeGameTemplate/Game/ArcadeGameScene.swift:74-81 | over frames t1..tn with t1..t(n−1) non-zero the duration grows by tn − t1 from a fresh clock (tn − lastUpdate otherwise) and the clock ends at tn |
| GameLoop.RunFramesInvariants | ArcadeGameTemplate/Game/ArcadeGameScene.swift:35-82 | any run of frames keeps the scene well formed and never changes the game-over flag, the input flags or the frame |
| GameLoop.ZeroTimestampRestartsClock | ArcadeGameTemplate/Game/ArcadeGameScene.swift:74 | a frame stamped 0 re-arms the sentinel, so the frame after it reports no elapsed time |
| Input.SideTouched | ArcadeGameTemplate/Game/ArcadeGameScene.swift:158-164 | a touch is on the left iff its x is strictly below half the width |
| Input.SideTouchedHalves | ArcadeGameTemplate/Game/ArcadeGameScene.swift:158-164 | the midpoint counts as right, the halves are closed under moving outwards, and y plays no part |
| Input.TouchesBegan | ArcadeGameTemplate/Game/ArcadeGameScene.swift:166-178 | an empty touch set changes nothing; otherwise the first touch raises the flag of its half, the other flag and the rest of the scene are unchanged |
| Input.TouchesEnded | ArcadeGameTemplate/Game/ArcadeGameScene.swift:180-183 | both flags become false whatever they were, and nothing else changes |
| Input.TouchFlagsLifecycle | ArcadeGameTemplate/Game/ArcadeGameScene.swift:166-183 | beginning never lowers a flag and is idempotent; ending erases whatever beginning did and is idempotent |
| Contact.ContactTarget | ArcadeGameTemplate/Game/ArcadeGameScene.swift:368 | the node picked is the first body's node exactly when that node exists and is named "asteroid", and the second body's node otherwise |
| Contact.DidBegin | ArcadeGameTemplate/Game/ArcadeGameScene.swift:360-374 | unless the categories are {player, asteroid} in either order the scene is unchanged; otherwise the picked node, if any, is removed as `RemoveFromParent` removes it, so the other children keep their order and count |
| Contact.PlayerContactRemovesAsteroid | ArcadeGameTemplate/Game/ArcadeGameScene.swift:365-370 | for bodies attached as the scene attaches them, a player/asteroid contact removes the asteroid, keeps the player and every other node, and does not depend on the order of the two bodies |
| Contact.OtherContactsIgnored | ArcadeGameTemplate/Game/ArcadeGameScene.swift:365-366 | a contact involving the floor, or between two bodies of one category, changes nothing |
| Contact.DidBeginIdempotent | ArcadeGameTemplate/Game/ArcadeGameScene.swift:368-370 | handling a contact twice, with both bodies still attached to the same nodes, equals handling it once, and the scene stays well formed |
| Contact.UnattachedAsteroidRemovesPlayer | ArcadeGameTemplate/Game/ArcadeGameScene.swift:368 | the node is picked by name, not by category: an asteroid body reported first without a node makes the handler remove the player |
| Spawning.RandomAsteroidPosition | ArcadeGameTemplate/Game/ArcadeGameScene.swift:238-250 | the spawn point is at 0.275 of the height and on the left (x = 0) or right (x = width) edge, the right one exactly when the coin says so (for a non-zero width) |
| Spawning.NewAsteroid | ArcadeGameTemplate/Game/ArcadeGameScene.swift:253-288 | the new node is a 70×70 sprite named "asteroid" at the position with the asteroid masks, gravity and restitution 0.5; its velocity is (±200, 0), negative iff x > midX, and xScale is 1 iff the velocity is positive, −1 otherwise |
| Spawning.CreateAsteroid | ArcadeGameTemplate/Game/ArcadeGameScene.swift:233-236 | the new asteroid is appended after the existing children, which are unchanged, under the fresh identity `nextId` |
| Spawning.CreateAsteroidPreservesWellFormed | ArcadeGameTemplate/Game/ArcadeGameScene.swift:288 | adding the spawned node keeps identities distinct and below `nextId` |
| Spawning.SpawnDirection | ArcadeGameTemplate/Game/ArcadeGameScene.swift:282-286 | on a frame of positive width a right-edge asteroid moves left at 200 and is mirrored; a left-edge one moves right at 200 and is not |
| Spawning.ZeroWidthSpawnsMoveRight | ArcadeGameTemplate/Game/ArcadeGameScene.swift:282 | on a zero-width frame both edges give velocity +200, since x > midX fails |
| Spawning.SpawnSurvivesSweep | ArcadeGameTemplate/Game/ArcadeGameScene.swift:238-250 | a freshly spawned asteroid touches the frame, so the next sweep (reading the unscaled size) keeps it |
| Spawning.ScaledSweepCullsRightSpawn | ArcadeGameTemplate/Game/ArcadeGameScene.swift:44-51 | if the size read at lines 44-47 carried the sprite's `xScale`, a right-edge spawn (mirrored at line 286) would have a box wholly right of the frame and be removed by the next sweep |
| Events.StepInvariants | ArcadeGameTemplate/Game/ArcadeGameScene.swift:16-26 | every callback keeps the scene well formed, keeps the frame and never changes the game-over flag; each child afterwards was a child before or has an identity at or above the old `nextId` |
| Events.RunInvariants | ArcadeGameTemplate/Game/ArcadeGameScene.swift:16-26 | the same invariants hold over any sequence of callbacks: each final child was there at the start or got a fresh identity during the run |
| Events.RemovedNodeStaysRemoved | ArcadeGameTemplate/Game/ArcadeGameScene.swift:53 | a node that one callback removes (by the sweep or a contact) is absent after any later sequence of callbacks, and no later child has its identity |
| Events.TouchThenReleaseScenario | ArcadeGameTemplate/Game/ArcadeGameScene.swift:158-183 | on a 400-wide screen a touch at x = 100 raises only the left flag, the next frame requests (0, +5), and after the touch ends the next frame requests nothing |

## Left out

- Physics simulation is left out because it happens inside SpriteKit, which is not part of this model. This covers gravity, integration, restitution, collision response, what `applyForce` does to the player's velocity, and the `SKConstraint` that keeps the player's x inside the frame. Only the requested force vectors are modelled.
- The player is an implicitly unwrapped optional and its body is reached with optional chaining (`player.physicsBody?`). The model requests forces as if the player and its body always exist, which `setUpGame` ensures.
- The `SKAction` cycle that spawns an asteroid every second (lines 135-143) is timer plumbing. Each spawn is an explicit event instead.
- `Bool.random()` at line 243 is the `rightSide` parameter.
- `ArcadeGameLogic` is not part of this model. The model assumes it keeps a duration and a game-over flag, and that `increaseSessionTime(by:)` adds its argument to the duration. `setUpGame` and `restartGame` are opaque and not modelled.
- Scene construction is not modelled: `didMove`, `setUpGame`, `setUpPhysicsWorld`, `createPlayer` and `createFloor`. The player's and floor's masks are kept as constants in `PhysicsCategory`.
- `registerScore` is empty in the source.
- Rendering is not modelled: textures, colours, the floor line's looks, and `print` logging.
- GameDurationView.swift is a display widget with no logic.
- Floating point is not modelled: `CGFloat` and `TimeInterval` are reals, so rounding does not arise.
- The model assumes the default anchor point, so the frame's origin is (0, 0) and `frame.midX` is half the width. ArcadeGameScene.swift never sets the anchor point.
- `touch.location(in:)` is not modelled. Touches arrive in scene coordinates.
- A Swift `Set` gives its `first` element in no particular order. The model takes the touches as a sequence in that order.
- Spawning.SpawnSurvivesSweep: holds only for the unscaled size the model stores. If SpriteKit reports a mirrored sprite's width as negative, a right-edge spawn is removed on the next frame (`Spawning.ScaledSweepCullsRightSpawn`; see Findings).
- Culling.Cull: uses each node's stored size. SpriteKit may report a sprite's size scaled by its `xScale`, which is −1 for leftward asteroids. The engine's reporting rule is not part of this model.
- Contact.DidBeginIdempotent: covers only a repeat whose bodies still carry the same nodes. A repeat whose asteroid body has lost its node removes the player instead (`Contact.UnattachedAsteroidRemovesPlayer`).
- The contact bodies' weak back-references to their nodes are not modelled. A body's node is given as an optional value.

## Findings

| source | as written | input that shows it | evidently intended | confidence | as-written member | corrected member |
|---|---|---|---|---|---|---|
| ArcadeGameTemplate/Game/ArcadeGameScene.swift:44-51 | the sweep builds the box from `asteroid.size`, and line 286 mirrors right-edge spawns with `xScale = -1` | frame of width w > 0; spawn with the coin true, so x = w and xScale = -1; if the size read carries the scale, its width is -70, so minX = w + 35 > w | a fresh asteroid that touches the frame survives the sweep, whichever way it faces | low, not executed: it depends on whether SpriteKit reports a sprite's size with a negative `xScale` applied, and SpriteKit is not part of this model | Spawning.ScaledSweepCullsRightSpawn | Spawning.SpawnSurvivesSweep |
| ArcadeGameTemplate/Game/ArcadeGameScene.swift:368 | the node to remove is picked by name: the first body's node if it is named "asteroid", otherwise the second body's node | an asteroid-category body with no node (its node already gone, for instance removed earlier in the same physics step) reported first, and the player's body second: the player's node is removed | the asteroid of the pair is removed and the player never is, as the comment at line 364 and the name `asteroidNode` say | low, not executed: it depends on SpriteKit delivering a contact whose asteroid body no longer has a node, and SpriteKit is not part of this model | Contact.UnattachedAsteroidRemovesPlayer | Contact.PlayerContactRemovesAsteroid |

=== FILE: contact.dfy ===
/**
 The contact delegate: when the physics world reports that two bodies have
 started touching, an asteroid that touched the player leaves the scene.
 */
module Contact {
  import opened Wrappers
  import PhysicsCategory
  import opened SceneGraph

  /** One body of a reported contact: its category and the node it is
      attached to, if any. */
  datatype ContactBody = ContactBody(categoryBitMask: bv32, node: Option<Node>)

  /** The two categories are exactly player and asteroid, in either order. */
  predicate IsPlayerAsteroidPair(a: bv32, b: bv32) {
    || (a == PhysicsCategory.Asteroid && b == PhysicsCategory.Player)
    || (a == PhysicsCategory.Player && b == PhysicsCategory.Asteroid)
  }

  /** The node the handler removes: the first body's node when that node is
      named "asteroid", the second body's node otherwise. */
  function ContactTarget(first: ContactBody, second: ContactBody): (t: Option<Node>)
    ensures t.Some? && t != second.node ==> t == first.node && t.value.name == Some(AsteroidName)
    ensures t == first.node || t == second.node
    ensures first.node.Some? && first.node.value.name == Some(AsteroidName) ==> t == first.node
    ensures !(first.node.Some? && first.node.value.name == Some(AsteroidName)) ==> t == second.node
  {
    if first.node.Some? && first.node.value.name == Some(AsteroidName) then first.node else second.node
  }

  /** Contact begins between `first` and `second`. */
  function DidBegin(s: Scene, first: ContactBody, second: ContactBody): (r: Scene)
    ensures !IsPlayerAsteroidPair(first.categoryBitMask, second.categoryBitMask) ==> r == s
    ensures ContactTarget(first, second).None? ==> r == s
    ensures r.(children := s.children) == s
    ensures forall n :: n in r.children ==> n in s.children
    ensures IsPlayerAsteroidPair(first.categoryBitMask, second.categoryBitMask) && ContactTarget(first, second).Some? ==>
      forall n :: n in r.children <==> n in s.children && n.id != ContactTarget(first, second).value.id
    ensures IsPlayerAsteroidPair(first.categoryBitMask, second.categoryBitMask) && ContactTarget(first, second).Some? ==>
      r == RemoveFromParent(s, ContactTarget(first, second).value.id)
  {
    if IsPlayerAsteroidPair(first.categoryBitMask, second.categoryBitMask) then
      match ContactTarget(first, second)
      case Some(node) => RemoveFromParent(s, node.id)
      case None => s
    else s
  }

  /** The body belongs to a node the way the scene builds them: an asteroid
      body is attached to a node named "asteroid" and the player's body to a
      node named "player". */
  predicate Attached(b: ContactBody) {
    && (b.categoryBitMask == PhysicsCategory.Asteroid ==> b.node.Some? && b.node.value.name == Some(AsteroidName))
    && (b.categoryBitMask == PhysicsCategory.Player ==> b.node.Some? && b.node.value.name == Some(PlayerName))
  }

  /** For bodies built the way the scene builds them, a player/asteroid
      contact removes the asteroid and keeps the player, whichever body the
      physics world reports first. */
  lemma PlayerContactRemovesAsteroid(s: Scene, player: ContactBody, asteroid: ContactBody)
    requires player.categoryBitMask == PhysicsCategory.Player && Attached(player)
    requires asteroid.categoryBitMask == PhysicsCategory.Asteroid && Attached(asteroid)
    requires player.node.value.id != asteroid.node.value.id
    ensures DidBegin(s, player, asteroid) == DidBegin(s, asteroid, player)
    ensures asteroid.node.value !in DidBegin(s, player, asteroid).children
    ensures player.node.value in s.children ==> player.node.value in DidBegin(s, player, asteroid).children
    ensures forall n :: n in s.children && n.id != asteroid.node.value.id ==> n in DidBegin(s, player, asteroid).children
  {
  }

  /** A contact between the floor and an asteroid, or any other pair that is
      not player and asteroid, leaves the scene as it was. */
  lemma OtherContactsIgnored(s: Scene, first: ContactBody, second: ContactBody)
    requires first.categoryBitMask == PhysicsCategory.Floor || second.categoryBitMask == PhysicsCategory.Floor
             || first.categoryBitMask == second.categoryBitMask
    ensures DidBegin(s, first, second) == s
  {
  }

  /** Handling a contact twice, with both bodies still attached to the same
      nodes, removes nothing more than handling it once; handling a contact
      keeps the scene well formed. */
  lemma DidBeginIdempotent(s: Scene, first: ContactBody, second: ContactBody)
    requires WellFormed(s)
    ensures DidBegin(DidBegin(s, first, second), first, second) == DidBegin(s, first, second)
    ensures WellFormed(DidBegin(s, first, second))
  {
    var t := ContactTarget(first, second);
    if IsPlayerAsteroidPair(first.categoryBitMask, second.categoryBitMask) && t.Some? {
      KeepPreservesWellFormed(s, (n: Node) => n.id != t.value.id);
    }
  }

  /** The removal is chosen by name, not by category: when the asteroid body
      is reported first but is attached to no node, the second body's node is
      removed, and that is the player's. */
  lemma UnattachedAsteroidRemovesPlayer(s: Scene, player: Node)
    requires player.name == Some(PlayerName) && player in s.children
    ensures player !in DidBegin(s, ContactBody(PhysicsCategory.Asteroid, None),
                                   ContactBody(PhysicsCategory.Player, Some(player))).children
  {
  }
}

=== FILE: culling.dfy ===
/**
 The sweep at the start of every frame that removes asteroids whose bounding
 box lies entirely outside the frame.
 */
module Culling {
  import opened Wrappers
  import opened Geometry
  import opened SceneGraph

  /** The sweep only looks at sprite nodes named "asteroid". */
  predicate IsAsteroid(n: Node) {
    n.kind == SpriteNode && n.name == Some(AsteroidName)
  }

  /** The node's bounding box is wholly left of, right of, below or above the
      frame; a box that touches an edge is not off-screen. */
  predicate OffScreen(f: Frame, n: Node) {
    BoxOffScreen(f, BoundingBox(n.position, n.size))
  }

  /** The box is wholly left of, right of, below or above the frame. */
  predicate BoxOffScreen(f: Frame, b: Box) {
    b.maxX < 0.0 || b.minX > f.width || b.maxY < 0.0 || b.minY > f.height
  }

  /** The size of a sprite with its horizontal scale applied: a mirrored
      sprite (`xScale` -1) gets a negative width. */
  function ScaledSize(n: Node): (sz: Size)
    ensures n.xScale == 1.0 ==> sz == n.size
    ensures n.xScale == -1.0 ==> sz.width == -n.size.width && sz.height == n.size.height
  {
    Size(n.size.width * n.xScale, n.size.height)
  }

  /** The sweep removes `n`. */
  predicate Culled(f: Frame, n: Node) {
    IsAsteroid(n) && OffScreen(f, n)
  }

  /** The children that survive the sweep, in their original order. */
  function Cull(f: Frame, children: seq<Node>): (r: seq<Node>)
    ensures forall n :: n in r <==> n in children && !Culled(f, n)
    ensures forall n :: n in children && !IsAsteroid(n) ==> n in r
    ensures |children| == 1 ==> r == if Culled(f, children[0]) then [] else children
  {
    KeepMembers(children, (n: Node) => !Culled(f, n));
    Keep(children, (n: Node) => !Culled(f, n))
  }

  /** An off-screen node shares no point with the frame and, when its size is
      not negative, a node that is not off-screen shares at least one point
      with it: asteroids that touch or overlap the frame survive. */
  lemma OffScreenIffDisjoint(f: Frame, n: Node)
    requires f.width >= 0.0 && f.height >= 0.0
    requires n.size.width >= 0.0 && n.size.height >= 0.0
    ensures OffScreen(f, n) <==> !exists p :: InBox(BoundingBox(n.position, n.size), p) && InFrame(f, p)
  {
    var b := BoundingBox(n.position, n.size);
    if !OffScreen(f, n) {
      var x := if b.minX < 0.0 then 0.0 else b.minX;
      var y := if b.minY < 0.0 then 0.0 else b.minY;
      assert InBox(b, Point(x, y)) && InFrame(f, Point(x, y));
    }
  }

  /** The sweep is order-preserving: sweeping two runs of children is
      sweeping each, one after the other. */
  lemma CullAppend(f: Frame, a: seq<Node>, b: seq<Node>)
    ensures Cull(f, a + b) == Cull(f, a) + Cull(f, b)
  {
    KeepAppend(a, b, (n: Node) => !Culled(f, n));
  }

  /** Sweeping twice removes nothing more. */
  lemma CullIdempotent(f: Frame, children: seq<Node>)
    ensures Cull(f, Cull(f, children)) == Cull(f, children)
  {
  }

  /** The sweep keeps the scene well formed. */
  lemma CullPreservesWellFormed(s: Scene)
    requires WellFormed(s)
    ensures WellFormed(s.(children := Cull(s.frame, s.children)))
  {
    KeepPreservesWellFormed(s, (n: Node) => !Culled(s.frame, n));
  }
}

=== FILE: events.dfy ===
/**
 The scene as a state machine: every callback the host framework delivers is
 an event, and a session is a sequence of events applied in order.
 */
module Events {
  import opened Geometry
  import opened GameSession
  import opened SceneGraph
  import Movement
  import GameLoop
  import Input
  import Contact
  import Spawning

  datatype Event =
    | Tick(currentTime: real)
    | TouchesBegan(touches: seq<Point>)
    | TouchesEnded(touches: seq<Point>)
    | ContactBegan(first: Contact.ContactBody, second: Contact.ContactBody)
    | SpawnAsteroid(rightSide: bool)

  /** The scene after one event. */
  function Step(s: Scene, e: Event): Scene {
    match e
    case Tick(t) => GameLoop.Update(s, t).scene
    case TouchesBegan(touches) => Input.TouchesBegan(s, touches)
    case TouchesEnded(touches) => Input.TouchesEnded(s, touches)
    case ContactBegan(a, b) => Contact.DidBegin(s, a, b)
    case SpawnAsteroid(rightSide) => Spawning.CreateAsteroid(s, rightSide)
  }

  /** The scene after a sequence of events. */
  function Run(s: Scene, es: seq<Event>): Scene
    decreases |es|
  {
    if |es| == 0 then s else Run(Step(s, es[0]), es[1..])
  }

  /** Every event keeps the scene well formed, leaves the frame alone and
      never changes the game-over flag: the scene itself never ends or resumes
      a game. Every child afterwards was a child before or has an identity
      handed out by this event, so a removed node never comes back. */
  lemma StepInvariants(s: Scene, e: Event)
    requires WellFormed(s)
    ensures WellFormed(Step(s, e))
    ensures Step(s, e).frame == s.frame
    ensures Step(s, e).nextId >= s.nextId
    ensures IsGameOver(Step(s, e).gameLogic) <==> IsGameOver(s.gameLogic)
    ensures forall n :: n in Step(s, e).children ==> n in s.children || n.id >= s.nextId
  {
    match e
    case Tick(t) => GameLoop.UpdatePreservesWellFormed(s, t);
    case TouchesBegan(_) =>
    case TouchesEnded(_) =>
    case ContactBegan(a, b) => Contact.DidBeginIdempotent(s, a, b);
    case SpawnAsteroid(rightSide) => Spawning.CreateAsteroidPreservesWellFormed(s, rightSide);
  }

  /** The invariants of one event hold over any sequence of events: every
      child at the end was a child at the start or got an identity handed out
      during the run. */
  lemma {:induction false} RunInvariants(s: Scene, es: seq<Event>)
    requires WellFormed(s)
    ensures WellFormed(Run(s, es))
    ensures Run(s, es).frame == s.frame
    ensures Run(s, es).nextId >= s.nextId
    ensures IsGameOver(Run(s, es).gameLogic) <==> IsGameOver(s.gameLogic)
    ensures forall n :: n in Run(s, es).children ==> n in s.children || n.id >= s.nextId
    decreases |es|
  {
    if |es| > 0 {
      StepInvariants(s, es[0]);
      RunInvariants(Step(s, es[0]), es[1..]);
    }
  }

  /** On a 400-wide screen a touch at x = 100 raises the left flag, so the
      next frame pushes the player up; once the touch ends the following
      frame pushes nothing. */
  lemma TouchThenReleaseScenario(s: Scene, y: real, t1: real, t2: real)
    requires s.frame.width == 400.0
    requires !s.isMovingToTheRight && !s.isMovingToTheLeft
    ensures var touched := Input.TouchesBegan(s, [Point(100.0, y)]);
      && touched.isMovingToTheLeft && !touched.isMovingToTheRight
      && GameLoop.Update(touched, t1).forces == [Movement.UpForce]
      && var released := Input.TouchesEnded(GameLoop.Update(touched, t1).scene, [Point(100.0, y)]);
         GameLoop.Update(released, t2).forces == []
  {
  }

  /** A node that has left a well-formed scene never comes back, whatever
      callbacks follow: its identity was handed out before and is never handed
      out again. */
  lemma RemovedNodeStaysRemoved(s: Scene, e: Event, es: seq<Event>, n: Node)
    requires WellFormed(s) && n in s.children && n !in Step(s, e).children
    ensures n !in Run(Step(s, e), es).children
    ensures forall m :: m in Run(Step(s, e), es).children ==> m.id != n.id
  {
    StepInvariants(s, e);
    RunInvariants(Step(s, e), es);
    var i :| 0 <= i < |s.children| && s.children[i] == n;
    assert n.id < s.nextId <= Step(s, e).nextId;
  }
}

=== FILE: game_loop.dfy ===
/**
 The per-frame update: the off-screen sweep, the choice of forces from the
 input flags, the game-over step and the session-time accounting.
 */
module GameLoop {
  import opened Geometry
  import opened GameSession
  import opened SceneGraph
  import opened Culling
  import opened Movement

  /** What one frame produces: the next scene and the forces requested on the
      player during the frame. */
  datatype UpdateResult = UpdateResult(scene: Scene, forces: seq<Vector>)

  /** The time reported to the game logic for a frame at `currentTime`. A
      last update of 0 means "no frame yet": the clock is first primed to the
      current time, so that frame reports nothing. Negative values (time going
      backwards) are passed on as they are. */
  function TimeElapsed(lastUpdate: real, currentTime: real): (d: real)
    ensures lastUpdate == 0.0 ==> d == 0.0
    ensures lastUpdate != 0.0 ==> lastUpdate + d == currentTime
  {
    var primed := if lastUpdate == 0.0 then currentTime else lastUpdate;
    currentTime - primed
  }

  /** One frame at `currentTime`. */
  function Update(s: Scene, currentTime: real): (r: UpdateResult)
    ensures r.scene.children == Cull(s.frame, s.children)
    ensures r.forces == RequestedForces(s.isMovingToTheRight, s.isMovingToTheLeft)
    ensures IsGameOver(r.scene.gameLogic) <==> IsGameOver(s.gameLogic)
    ensures r.scene.lastUpdate == currentTime
    ensures s.lastUpdate == 0.0 ==> r.scene.gameLogic.sessionDuration == s.gameLogic.sessionDuration
    ensures s.lastUpdate != 0.0 ==>
      r.scene.gameLogic.sessionDuration == s.gameLogic.sessionDuration + (currentTime - s.lastUpdate)
    ensures r.scene.frame == s.frame && r.scene.nextId == s.nextId
    ensures r.scene.isMovingToTheRight == s.isMovingToTheRight
    ensures r.scene.isMovingToTheLeft == s.isMovingToTheLeft
  {
    var kept := Cull(s.frame, s.children);
    var forces := RequestedForces(s.isMovingToTheRight, s.isMovingToTheLeft);
    var logic := CheckGameOver(s.gameLogic);
    var elapsed := TimeElapsed(s.lastUpdate, currentTime);
    var next := s.(children := kept, lastUpdate := currentTime,
                   gameLogic := IncreaseSessionTime(logic, elapsed));
    UpdateResult(next, forces)
  }

  /** A frame keeps the scene well formed. */
  lemma UpdatePreservesWellFormed(s: Scene, currentTime: real)
    requires WellFormed(s)
    ensures WellFormed(Update(s, currentTime).scene)
  {
    CullPreservesWellFormed(s);
  }

  /** The scene after a run of frames at the timestamps `ts`, in order. */
  function RunFrames(s: Scene, ts: seq<real>): Scene
    decreases |ts|
  {
    if |ts| == 0 then s else RunFrames(Update(s, ts[0]).scene, ts[1..])
  }

  /** Over frames t1 .. tn whose timestamps, except perhaps the last, are not
      0, the session time grows by tn - t1 when no frame came before, and by
      tn minus the previous frame's time otherwise; the clock ends at tn. */
  lemma {:induction false} SessionTimeTelescopes(s: Scene, ts: seq<real>)
    requires |ts| > 0
    requires forall i :: 0 <= i < |ts| - 1 ==> ts[i] != 0.0
    ensures RunFrames(s, ts).lastUpdate == ts[|ts| - 1]
    ensures RunFrames(s, ts).gameLogic.sessionDuration
         == s.gameLogic.sessionDuration + ts[|ts| - 1] - (if s.lastUpdate == 0.0 then ts[0] else s.lastUpdate)
    decreases |ts|
  {
    var next := Update(s, ts[0]).scene;
    if |ts| > 1 {
      var rest := ts[1..];
      assert forall i :: 0 <= i < |rest| - 1 ==> rest[i] == ts[i + 1];
      SessionTimeTelescopes(next, rest);
      assert rest[|rest| - 1] == ts[|ts| - 1];
    }
  }

  /** A run of frames never changes the game-over flag, the input flags, the
      frame or the identities handed out, and keeps the scene well formed. */
  lemma {:induction false} RunFramesInvariants(s: Scene, ts: seq<real>)
    requires WellFormed(s)
    ensures WellFormed(RunFrames(s, ts))
    ensures IsGameOver(RunFrames(s, ts).gameLogic) <==> IsGameOver(s.gameLogic)
    ensures RunFrames(s, ts).isMovingToTheRight == s.isMovingToTheRight
    ensures RunFrames(s, ts).isMovingToTheLeft == s.isMovingToTheLeft
    ensures RunFrames(s, ts).frame == s.frame && RunFrames(s, ts).nextId == s.nextId
    decreases |ts|
  {
    if |ts| > 0 {
      UpdatePreservesWellFormed(s, ts[0]);
      RunFramesInvariants(Update(s, ts[0]).scene, ts[1..]);
    }
  }

  /** The "no frame yet" sentinel is the value 0 itself: a frame stamped 0 in
      the middle of a session leaves the clock at 0, so the next frame reports
      nothing instead of its full timestamp. */
  lemma ZeroTimestampRestartsClock(s: Scene, t: real)
    ensures Update(Update(s, 0.0).scene, t).scene.gameLogic.sessionDuration
         == Update(s, 0.0).scene.gameLogic.sessionDuration
  {
  }
}

=== FILE: game_session.dfy ===
/**
 The shared game logic object as the scene sees it: an elapsed-session
 counter and a game-over flag. Its own rules (when a game ends, how it
 restarts) are not part of this model.
 */
module GameSession {

  datatype GameLogic = GameLogic(sessionDuration: real, isGameOver: bool)

  /** Adds `delta` to the session duration, whatever its sign. */
  function IncreaseSessionTime(g: GameLogic, delta: real): (r: GameLogic)
    ensures r.sessionDuration - g.sessionDuration == delta
    ensures r.isGameOver == g.isGameOver
  {
    g.(sessionDuration := g.sessionDuration + delta)
  }

  /** The scene's game-over condition: it only reads the game logic's flag. */
  predicate IsGameOver(g: GameLogic) {
    g.isGameOver
  }

  /** Ends the game: the flag becomes true and the duration is kept. */
  function FinishGame(g: GameLogic): (r: GameLogic)
    ensures IsGameOver(r)
    ensures r.sessionDuration == g.sessionDuration
    ensures IsGameOver(g) ==> r == g
  {
    g.(isGameOver := true)
  }

  /** The game-over step of a frame: finish the game when it is over. */
  function CheckGameOver(g: GameLogic): (r: GameLogic)
    ensures r == g
  {
    if IsGameOver(g) then FinishGame(g) else g
  }

  /** Finishing is idempotent, and the game-over step never clears the flag
      nor raises it by itself. */
  lemma GameOverLatch(g: GameLogic)
    ensures FinishGame(FinishGame(g)) == FinishGame(g)
    ensures IsGameOver(CheckGameOver(g)) <==> IsGameOver(g)
    ensures CheckGameOver(CheckGameOver(g)) == CheckGameOver(g)
  {
  }
}

=== FILE: geometry.dfy ===
/**
 Points, sizes, vectors and the scene frame, with coordinates as mathematical
 reals (an idealisation of CGFloat with no rounding).
 */
module Geometry {

  datatype Point = Point(x: real, y: real)

  datatype Size = Size(width: real, height: real)

  datatype Vector = Vector(dx: real, dy: real)

  /** The scene's frame. Its origin is (0, 0), the default for a scene whose
      anchor point is never changed, so `midX` is half the width. */
  datatype Frame = Frame(width: real, height: real) {

    function MidX(): real {
      width / 2.0
    }
  }

  /** An axis-aligned rectangle given by its extreme coordinates. */
  datatype Box = Box(minX: real, maxX: real, minY: real, maxY: real)

  /** The bounding box of a node of size `s` whose position (its centre) is `p`. */
  function BoundingBox(p: Point, s: Size): (b: Box)
    ensures b.maxX - b.minX == s.width && b.maxY - b.minY == s.height
    ensures b.minX + b.maxX == 2.0 * p.x && b.minY + b.maxY == 2.0 * p.y
  {
    Box(p.x - s.width / 2.0, p.x + s.width / 2.0, p.y - s.height / 2.0, p.y + s.height / 2.0)
  }

  /** The closed rectangle `b` contains `p` (edges included). */
  predicate InBox(b: Box, p: Point) {
    b.minX <= p.x <= b.maxX && b.minY <= p.y <= b.maxY
  }

  /** The closed frame rectangle [0, width] x [0, height] contains `p`. */
  predicate InFrame(f: Frame, p: Point) {
    0.0 <= p.x <= f.width && 0.0 <= p.y <= f.height
  }

  /** The resultant of a sequence of vectors. */
  function Sum(vs: seq<Vector>): Vector {
    if |vs| == 0 then Vector(0.0, 0.0)
    else var rest := Sum(vs[1..]); Vector(vs[0].dx + rest.dx, vs[0].dy + rest.dy)
  }
}

=== FILE: input.dfy ===
/**
 Touch handling: a touch that begins sets the movement flag of the screen half
 it lands in; a touch that ends clears both flags.
 */
module Input {
  import opened Geometry
  import opened SceneGraph

  datatype SideOfTheScreen = Right | Left

  /** The half of the screen a touch lands in: strictly left of the middle is
      the left half, the middle itself belongs to the right half. */
  function SideTouched(f: Frame, position: Point): (side: SideOfTheScreen)
    ensures side == Left <==> position.x < f.width / 2.0
  {
    if position.x < f.width / 2.0 then Left else Right
  }

  /** The halves are split at the middle: the midpoint is on the right,
      moving a touch leftwards never takes it out of the left half and moving
      it rightwards never takes it out of the right half; the vertical
      coordinate plays no part. */
  lemma SideTouchedHalves(f: Frame, p: Point, q: Point)
    ensures SideTouched(f, Point(f.width / 2.0, p.y)) == Right
    ensures SideTouched(f, p) == Left && q.x <= p.x ==> SideTouched(f, q) == Left
    ensures SideTouched(f, p) == Right && q.x >= p.x ==> SideTouched(f, q) == Right
    ensures p.x == q.x ==> SideTouched(f, p) == SideTouched(f, q)
  {
  }

  /** A set of touches begins. The touches are given in the order the set
      yields them; only the first one is looked at, and it raises the flag of
      its half. The other flag and the rest of the scene are untouched, and an
      empty set changes nothing. */
  function TouchesBegan(s: Scene, touches: seq<Point>): (r: Scene)
    ensures |touches| == 0 ==> r == s
    ensures |touches| > 0 && SideTouched(s.frame, touches[0]) == Right ==>
      r.isMovingToTheRight && r.isMovingToTheLeft == s.isMovingToTheLeft
    ensures |touches| > 0 && SideTouched(s.frame, touches[0]) == Left ==>
      r.isMovingToTheLeft && r.isMovingToTheRight == s.isMovingToTheRight
    ensures r.(isMovingToTheRight := s.isMovingToTheRight, isMovingToTheLeft := s.isMovingToTheLeft) == s
  {
    if |touches| == 0 then s
    else
      match SideTouched(s.frame, touches[0])
      case Right => s.(isMovingToTheRight := true)
      case Left => s.(isMovingToTheLeft := true)
  }

  /** Any set of touches ends: both flags are cleared, whatever they were. */
  function TouchesEnded(s: Scene, touches: seq<Point>): (r: Scene)
    ensures !r.isMovingToTheRight && !r.isMovingToTheLeft
    ensures r.(isMovingToTheRight := s.isMovingToTheRight, isMovingToTheLeft := s.isMovingToTheLeft) == s
  {
    s.(isMovingToTheRight := false, isMovingToTheLeft := false)
  }

  /** Beginning touches only ever raises flags, beginning the same touches
      again changes nothing more, and once touches end nothing remains of
      the touches that began before. */
  lemma TouchFlagsLifecycle(s: Scene, began: seq<Point>, ended: seq<Point>)
    ensures s.isMovingToTheRight ==> TouchesBegan(s, began).isMovingToTheRight
    ensures s.isMovingToTheLeft ==> TouchesBegan(s, began).isMovingToTheLeft
    ensures TouchesBegan(TouchesBegan(s, began), began) == TouchesBegan(s, began)
    ensures TouchesEnded(TouchesBegan(s, began), ended) == TouchesEnded(s, ended)
    ensures TouchesEnded(TouchesEnded(s, ended), ended) == TouchesEnded(s, ended)
  {
  }
}

=== FILE: movement.dfy ===
/**
 The forces the frame update asks the physics world to apply to the player,
 chosen from the two input flags. What the forces do to the player's motion
 is the physics engine's business and is not modelled.
 */
module Movement {
  import opened Geometry

  /** The force `moveUp` applies. */
  const UpForce: Vector := Vector(0.0, 5.0)

  /** The force `moveDown` applies. */
  const DownForce: Vector := Vector(0.0, -5.0)

  /** The forces requested in one frame, in the order they are applied: the
      right flag moves the player down, then the left flag moves it up. */
  function RequestedForces(isMovingToTheRight: bool, isMovingToTheLeft: bool): (r: seq<Vector>)
    ensures DownForce in r <==> isMovingToTheRight
    ensures UpForce in r <==> isMovingToTheLeft
    ensures |r| == (if isMovingToTheRight then 1 else 0) + (if isMovingToTheLeft then 1 else 0)
    ensures forall v :: v in r ==> v.dx == 0.0
    ensures isMovingToTheRight && isMovingToTheLeft ==> r == [DownForce, UpForce]
  {
    (if isMovingToTheRight then [DownForce] else []) + (if isMovingToTheLeft then [UpForce] else [])
  }

  /** The resultant force is purely vertical, +5 per left flag and -5 per
      right flag, so with both flags set the two forces cancel. */
  lemma NetForce(isMovingToTheRight: bool, isMovingToTheLeft: bool)
    ensures Sum(RequestedForces(isMovingToTheRight, isMovingToTheLeft)).dx == 0.0
    ensures Sum(RequestedForces(isMovingToTheRight, isMovingToTheLeft)).dy
         == (if isMovingToTheLeft then 5.0 else 0.0) - (if isMovingToTheRight then 5.0 else 0.0)
  {
    var r := RequestedForces(isMovingToTheRight, isMovingToTheLeft);
    if isMovingToTheRight && isMovingToTheLeft {
      assert r == [DownForce, UpForce];
      assert Sum(r[1..]) == Sum([UpForce]) == UpForce;
    } else if isMovingToTheRight {
      assert r == [DownForce];
    } else if isMovingToTheLeft {
      assert r == [UpForce];
    }
  }
}

=== FILE: physics_category.dfy ===
/**
 The category bit masks that classify physics bodies, as 32-bit unsigned
 integers, and the masks the scene gives the player, the asteroids and the
 floor.
 */
module PhysicsCategory {

  const None: bv32 := 0
  const All: bv32 := 0xFFFF_FFFF
  const Player: bv32 := 0x1
  const Asteroid: bv32 := 0x2
  const Floor: bv32 := 0x4

  /** Exactly one bit of `m` is set. */
  predicate SingleBit(m: bv32) {
    m != 0 && m & (m - 1) == 0
  }

  /** The three categories are distinct single bits, none of them is the
      empty mask and all of them lie inside `All`. */
  lemma CategoriesAreDisjointBits()
    ensures SingleBit(Player) && SingleBit(Asteroid) && SingleBit(Floor)
    ensures Player & Asteroid == 0 && Player & Floor == 0 && Asteroid & Floor == 0
    ensures Player | All == All && Asteroid | All == All && Floor | All == All
    ensures Player | Asteroid | Floor != All
  {
  }

  /** The masks a body is configured with. The player's and the floor's
      bodies are built during scene set-up, which this model does not build
      as nodes, so their masks are recorded here on their own; the asteroid's
      body, built by `Spawning.NewAsteroid`, is proved to carry
      `AsteroidMasks`. */
  datatype Masks = Masks(category: bv32, contactTest: bv32, collision: bv32)

  /** The player's body: it reports and collides with asteroids only. */
  const PlayerMasks: Masks := Masks(Player, Asteroid, Asteroid)

  /** An asteroid's body: it reports and collides with the player and the floor. */
  const AsteroidMasks: Masks := Masks(Asteroid, Player | Floor, Player | Floor)

  /** The floor's body: it reports and collides with asteroids only. */
  const FloorMasks: Masks := Masks(Floor, Asteroid, Asteroid)

  /** The physics world reports a contact between two bodies when either
      body's category is in the other's contact-test mask. */
  predicate ReportsContact(a: Masks, b: Masks) {
    a.category & b.contactTest != 0 || b.category & a.contactTest != 0
  }

  /** Body `a` is affected by a collision with body `b` when `b`'s category
      is in `a`'s collision mask; the physics world decides this per body. */
  predicate AffectedBy(a: Masks, b: Masks) {
    b.category & a.collision != 0
  }

  /** Both bodies are affected by the collision. */
  predicate Collide(a: Masks, b: Masks) {
    AffectedBy(a, b) && AffectedBy(b, a)
  }

  /** With the masks above, only the player/asteroid and asteroid/floor pairs
      interact; the player and the floor never do, and two asteroids pass
      through each other. */
  lemma ConfiguredPairs()
    ensures ReportsContact(PlayerMasks, AsteroidMasks) && Collide(PlayerMasks, AsteroidMasks)
    ensures ReportsContact(AsteroidMasks, FloorMasks) && Collide(AsteroidMasks, FloorMasks)
    ensures !ReportsContact(PlayerMasks, FloorMasks) && !Collide(PlayerMasks, FloorMasks)
    ensures !ReportsContact(AsteroidMasks, AsteroidMasks) && !Collide(AsteroidMasks, AsteroidMasks)
  {
  }
}

=== FILE: scene_graph.dfy ===
/**
 The scene graph: nodes with a kind, an optional name, a position, a size and
 an optional physics body, and the scene record that owns them together with
 the input flags, the last update time and the game logic.
 */
module SceneGraph {
  import opened Wrappers
  import opened Geometry
  import opened GameSession

  const AsteroidName: string := "asteroid"
  const PlayerName: string := "player"

  /** A sprite (the asteroids), a shape (the player, the floor line) or a
      plain node (the floor). */
  datatype NodeKind = SpriteNode | ShapeNode | PlainNode

  datatype PhysicsBody = PhysicsBody(
    categoryBitMask: bv32,
    contactTestBitMask: bv32,
    collisionBitMask: bv32,
    affectedByGravity: bool,
    restitution: real,
    velocity: Vector)

  /** A node of the scene. `id` stands for the object's identity. */
  datatype Node = Node(
    id: nat,
    kind: NodeKind,
    name: Option<string>,
    position: Point,
    size: Size,
    xScale: real,
    physicsBody: Option<PhysicsBody>)

  datatype Scene = Scene(
    frame: Frame,
    children: seq<Node>,
    isMovingToTheRight: bool,
    isMovingToTheLeft: bool,
    lastUpdate: real,
    gameLogic: GameLogic,
    nextId: nat)

  /** No two children share an identity, and every identity was handed out
      before `nextId`. */
  predicate WellFormed(s: Scene) {
    && DistinctIds(s.children)
    && (forall i :: 0 <= i < |s.children| ==> s.children[i].id < s.nextId)
  }

  /** The children for which `keep` holds, in their original order. */
  function Keep(children: seq<Node>, keep: Node -> bool): (r: seq<Node>)
    ensures |r| <= |children|
    ensures (forall n :: n in children ==> keep(n)) ==> r == children
  {
    if |children| == 0 then []
    else
      var rest := Keep(children[..|children| - 1], keep);
      var last := children[|children| - 1];
      assert children == children[..|children| - 1] + [last];
      if keep(last) then rest + [last] else rest
  }

  /** A node is kept iff it is a child and passes the test. */
  lemma {:induction false} KeepMembers(children: seq<Node>, keep: Node -> bool)
    ensures forall n :: n in Keep(children, keep) <==> n in children && keep(n)
    decreases |children|
  {
    if |children| > 0 {
      var init := children[..|children| - 1];
      KeepMembers(init, keep);
      assert children == init + [children[|children| - 1]];
    }
  }

  /** Keeping distributes over concatenation, so the relative order of the
      kept children is the order they had. */
  lemma {:induction false} KeepAppend(a: seq<Node>, b: seq<Node>, keep: Node -> bool)
    ensures Keep(a + b, keep) == Keep(a, keep) + Keep(b, keep)
    decreases |b|
  {
    if |b| == 0 {
      assert a + b == a;
    } else {
      var b' := b[..|b| - 1];
      assert (a + b)[..|a + b| - 1] == a + b';
      assert (a + b)[|a + b| - 1] == b[|b| - 1];
      KeepAppend(a, b', keep);
    }
  }

  /** No two nodes of `c` share an identity. */
  predicate DistinctIds(c: seq<Node>) {
    forall i, j :: 0 <= i < j < |c| ==> c[i].id != c[j].id
  }

  /** Dropping children never makes two of them share an identity. */
  lemma {:induction false} KeepDistinct(c: seq<Node>, keep: Node -> bool)
    requires DistinctIds(c)
    ensures DistinctIds(Keep(c, keep))
  {
    if |c| > 0 {
      var init := c[..|c| - 1];
      var last := c[|c| - 1];
      KeepDistinct(init, keep);
      KeepMembers(init, keep);
      var rest := Keep(init, keep);
      if keep(last) {
        var r := rest + [last];
        forall i, j | 0 <= i < j < |r|
          ensures r[i].id != r[j].id
        {
          if j == |rest| {
            assert r[i] in init;
            var k :| 0 <= k < |init| && init[k] == r[i];
            assert c[k] == r[i];
          } else {
            assert r[i] == rest[i] && r[j] == rest[j];
          }
        }
      }
    }
  }

  /** Dropping children keeps the scene well formed. */
  lemma KeepPreservesWellFormed(s: Scene, keep: Node -> bool)
    requires WellFormed(s)
    ensures WellFormed(s.(children := Keep(s.children, keep)))
  {
    KeepDistinct(s.children, keep);
    KeepMembers(s.children, keep);
    var r := Keep(s.children, keep);
    forall i | 0 <= i < |r|
      ensures r[i].id < s.nextId
    {
      assert r[i] in s.children;
    }
  }

  /** `removeFromParent` on the node with identity `id`: the node leaves the
      scene, nothing else changes, and removing an absent node is a no-op. */
  function RemoveFromParent(s: Scene, id: nat): (r: Scene)
    ensures forall n :: n in r.children <==> n in s.children && n.id != id
    ensures (forall n :: n in s.children ==> n.id != id) ==> r == s
    ensures r.(children := s.children) == s
    ensures |r.children| <= |s.children|
  {
    KeepMembers(s.children, Other(id));
    s.(children := Keep(s.children, Other(id)))
  }

  /** The test that keeps every node except the one with identity `id`. */
  function Other(id: nat): Node -> bool {
    (n: Node) => n.id != id
  }

  /** In a well-formed scene, removing the child at index `k` splices it out:
      the children before and after it stay, in their order. */
  lemma RemoveFromParentSplice(s: Scene, k: nat)
    requires WellFormed(s) && k < |s.children|
    ensures RemoveFromParent(s, s.children[k].id).children == s.children[..k] + s.children[k+1..]
  {
    KeepSplice(s.children, k);
  }

  /** Dropping the identity of the child at `k` from distinct children drops
      that child alone. */
  lemma {:induction false} KeepSplice(c: seq<Node>, k: nat)
    requires DistinctIds(c) && k < |c|
    ensures Keep(c, Other(c[k].id)) == c[..k] + c[k+1..]
    decreases |c|
  {
    var id := c[k].id;
    var init, last := c[..|c| - 1], c[|c| - 1];
    if k == |c| - 1 {
      forall i | 0 <= i < |init| ensures init[i].id != id {
        assert init[i] == c[i];
      }
      KeepOthers(init, id);
      assert c[k+1..] == [];
    } else {
      assert DistinctIds(init);
      assert init[k] == c[k];
      KeepSplice(init, k);
      assert last.id != id;
      assert init[..k] == c[..k];
      assert init[k+1..] + [last] == c[k+1..];
    }
  }

  /** Removing an identity no child has keeps every child. */
  lemma KeepOthers(c: seq<Node>, id: nat)
    requires forall i :: 0 <= i < |c| ==> c[i].id != id
    ensures Keep(c, Other(id)) == c
  {
  }
}

=== FILE: spawning.dfy ===
/**
 Asteroid spawning: where a new asteroid appears, how it is built and which
 way it starts moving. The repeating timer that triggers a spawn is replaced
 by an explicit spawn event, and the coin toss that picks the edge by a
 parameter.
 */
module Spawning {
  import opened Wrappers
  import opened Geometry
  import PhysicsCategory
  import opened SceneGraph
  import Culling

  /** Asteroids appear at this fraction of the frame's height. */
  const SpawnHeightFraction: real := 0.275

  const AsteroidSize: Size := Size(70.0, 70.0)

  /** The magnitude of an asteroid's initial horizontal velocity. */
  const AsteroidSpeed: real := 200.0

  const AsteroidRestitution: real := 0.5

  /** The spawn point: on the right edge when the coin toss says so, on the
      left edge otherwise, at a fixed fraction of the height. */
  function RandomAsteroidPosition(f: Frame, rightSide: bool): (p: Point)
    ensures p.y == f.height * SpawnHeightFraction
    ensures p.x == 0.0 || p.x == f.width
    ensures f.width != 0.0 ==> (rightSide <==> p.x == f.width)
  {
    var positionX := if rightSide then f.width else 0.0;
    Point(positionX, f.height * SpawnHeightFraction)
  }

  /** A new asteroid at `position`: a sprite named "asteroid", 70 by 70,
      affected by gravity, bouncing off the player and the floor, moving
      horizontally at full speed away from the half of the frame it starts
      in (leftwards when right of the middle, rightwards otherwise), and
      drawn mirrored exactly when it moves leftwards. */
  function NewAsteroid(f: Frame, position: Point, id: nat): (n: Node)
    ensures n.id == id && Culling.IsAsteroid(n)
    ensures n.position == position && n.size == AsteroidSize
    ensures n.physicsBody.Some?
    ensures n.physicsBody.value.categoryBitMask == PhysicsCategory.AsteroidMasks.category
    ensures n.physicsBody.value.contactTestBitMask == PhysicsCategory.AsteroidMasks.contactTest
    ensures n.physicsBody.value.collisionBitMask == PhysicsCategory.AsteroidMasks.collision
    ensures n.physicsBody.value.affectedByGravity
    ensures n.physicsBody.value.restitution == AsteroidRestitution
    ensures var v := n.physicsBody.value.velocity;
      && v.dy == 0.0
      && (v.dx == AsteroidSpeed || v.dx == -AsteroidSpeed)
      && (v.dx < 0.0 <==> position.x > f.MidX())
      && (n.xScale == 1.0 <==> v.dx > 0.0)
      && (n.xScale == 1.0 || n.xScale == -1.0)
  {
    var initialVelocityX := if position.x > f.MidX() then -AsteroidSpeed else AsteroidSpeed;
    var xScale := if initialVelocityX > 0.0 then 1.0 else -1.0;
    var body := PhysicsBody(
      PhysicsCategory.Asteroid,
      PhysicsCategory.Player | PhysicsCategory.Floor,
      PhysicsCategory.Player | PhysicsCategory.Floor,
      true,
      AsteroidRestitution,
      Vector(initialVelocityX, 0.0));
    Node(id, SpriteNode, Some(AsteroidName), position, AsteroidSize, xScale, Some(body))
  }

  /** One spawn: a new asteroid at the chosen edge is added after every
      existing child, under a fresh identity; nothing else changes. */
  function CreateAsteroid(s: Scene, rightSide: bool): (r: Scene)
    ensures |r.children| == |s.children| + 1
    ensures r.children[..|s.children|] == s.children
    ensures r.children[|s.children|] == NewAsteroid(s.frame, RandomAsteroidPosition(s.frame, rightSide), s.nextId)
    ensures r.nextId == s.nextId + 1
    ensures r.(children := s.children, nextId := s.nextId) == s
  {
    var asteroid := NewAsteroid(s.frame, RandomAsteroidPosition(s.frame, rightSide), s.nextId);
    s.(children := s.children + [asteroid], nextId := s.nextId + 1)
  }

  /** A spawn keeps the scene well formed. */
  lemma CreateAsteroidPreservesWellFormed(s: Scene, rightSide: bool)
    requires WellFormed(s)
    ensures WellFormed(CreateAsteroid(s, rightSide))
  {
  }

  /** On a frame of positive width, an asteroid spawned on the right edge
      starts moving left and is drawn mirrored, and one spawned on the left
      edge starts moving right and is drawn as is: each faces the way it
      travels. */
  lemma SpawnDirection(f: Frame, rightSide: bool, id: nat)
    requires f.width > 0.0
    ensures var n := NewAsteroid(f, RandomAsteroidPosition(f, rightSide), id);
      && (rightSide ==> n.physicsBody.value.velocity.dx == -AsteroidSpeed && n.xScale == -1.0)
      && (!rightSide ==> n.physicsBody.value.velocity.dx == AsteroidSpeed && n.xScale == 1.0)
  {
  }

  /** On a frame of zero width both edges coincide with the middle, and
      either coin toss gives an asteroid moving right. */
  lemma ZeroWidthSpawnsMoveRight(f: Frame, rightSide: bool, id: nat)
    requires f.width == 0.0
    ensures NewAsteroid(f, RandomAsteroidPosition(f, rightSide), id).physicsBody.value.velocity.dx == AsteroidSpeed
  {
  }

  /** A freshly spawned asteroid touches the frame, so the next sweep keeps
      it. */
  lemma SpawnSurvivesSweep(s: Scene, rightSide: bool)
    requires s.frame.width >= 0.0 && s.frame.height >= 0.0
    ensures CreateAsteroid(s, rightSide).children[|s.children|]
         in Culling.Cull(s.frame, CreateAsteroid(s, rightSide).children)
  {
  }

  /** Were the sweep to read a sprite's size with its horizontal scale
      applied, an asteroid spawned on the right edge of a frame of positive
      width would be mirrored, get a box lying wholly right of the frame, and
      be removed by the very next sweep. */
  lemma ScaledSweepCullsRightSpawn(s: Scene)
    requires s.frame.width > 0.0 && s.frame.height >= 0.0
    ensures var n := CreateAsteroid(s, true).children[|s.children|];
      && Culling.IsAsteroid(n)
      && Culling.BoxOffScreen(s.frame, BoundingBox(n.position, Culling.ScaledSize(n)))
      && !Culling.OffScreen(s.frame, n)
  {
  }
}

=== FILE: wrappers.dfy ===
/** The optional values the scene reads: a node's name and a body's node. */
module Wrappers {

  /** Swift's `T?`: either no value or some value. */
  datatype Option<+T> = None | Some(value: T)
}
